=== FILE: README.md ===
# KimiAgent core in Dafny

This project models the core of KimiAgent, a chat agent backed by Kimi's
OpenAI-compatible chat-completion API. The core has three parts:

- **Conversation memory.** `ConversationMemory` keeps one session's
  transcript of `{role, content, timestamp}` records. With the `"file"`
  backend it writes the whole transcript through to durable storage on
  every append, and loads it back when a store is constructed.
  `MemoryManager` is the process-wide registry from session id to store.
- **The turn orchestrator.** `KimiAgent.chat` puts the system prompt into
  an empty transcript and decides by keyword whether to search. When it
  searches, it folds the formatted results into the user text. It then
  stores the user turn, asks the model with the whole transcript, and
  stores the reply. `KimiAgent.analyze_file` extracts a document's text
  first and then runs the same turn with a fixed summarise prompt.
- **The tools.** `web_search` picks its backend from the SerpAPI key and
  converts the libraries' raw records into results, with an error
  sentinel. `format_search_results` renders results as numbered blocks.
  `extract_text` dispatches on the file suffix and truncates the text to
  `MAX_CHARS`. `summarize_prompt` builds the summarise prompt.

Modules:

- `Wrappers`: `Option` and `Result`.
- `PyText`: the Python string built-ins the code relies on, on `seq<char>`.
  These are `str.lower` (ASCII), `t in s`, `sep.join`, `str(n)`, the slice
  `s[:n]` including a negative `n`, and `str.lstrip`.
- `Memory`: the transcript store and the registry, as classes.
  - Durable storage is a shared `Disk` object. It maps a (memory directory,
    session id) key to the persisted transcript.
  - `Synced()` is the write-through invariant of a store.
  - `Valid()` is the registry's invariant: every store is registered under
    its own id, shares the disk and is synced.
- `WebSearch`: the search tool.
  - The DuckDuckGo and SerpAPI libraries are functions of the query. They
    return raw records or the text of the exception they raised.
  - The collecting loops and `format_search_results` are methods, each
    proved equal to a specification function.
- `FileReader`: the file reader.
  - PyMuPDF, python-docx and the file read are functions of the path.
  - A missing library and a raised exception are distinct outcomes.
- `Agent`: the orchestrator.
  - The model client is a function from the messages it is sent to its
    answer: the first choice's content (possibly null) or a failure.
  - `Turn` states one turn on the model's view of the transcript, and
    `Step`/`Replay` extend it to a whole session.
  - `KimiAgent.Chat` and `KimiAgent.AnalyzeFile` are proved to change the
    role and content of the session's entries (its `History`) exactly as
    `Step` says, and to keep the earlier stored records, time stamps
    included, as a prefix; the time stamps of the records they add are not
    constrained.
    Every session that starts empty therefore holds either nothing or
    exactly one system entry, the system prompt, at index 0
    (`SessionHasOnePreamble`). This holds even when model calls or
    extractions fail.

Time stamps come from a `Clock` object whose readings are a parameter. The
environment variables are also parameters: `MEMORY_BACKEND` and
`MEMORY_DIR` are held by the registry, and `SERPAPI_KEY` by the search
backends.

Deleting a session whose id is not registered in this process returns
false and leaves its persisted transcript in place. So a file-backed
history from an earlier process survives a delete until the session has
been looked up once. See `Memory.MemoryManager.Delete` and the `!existed`
case of `Memory.DeleteThenGet`.

## Model

| member | source | states |
|---|---|---|
| `Memory.ForModel` | backend/agent/memory/conversation_memory.py:37-39 | the model's view has the transcript's length and order, with each role and content kept and the time stamp dropped |
| `Memory.ConversationMemory.constructor` | backend/agent/memory/conversation_memory.py:14-22 | a file-backed store starts with the persisted transcript of its (directory, session) key, or empty when there is none; any other backend starts empty; the new store is synced |
| `Memory.ConversationMemory.AddUser` | backend/agent/memory/conversation_memory.py:28-29 | appends exactly one user record at the end and keeps every earlier record; for the file backend the persisted copy becomes the whole new transcript, otherwise nothing is persisted |
| `Memory.ConversationMemory.AddAssistant` | backend/agent/memory/conversation_memory.py:31-32 | the same for one assistant record |
| `Memory.ConversationMemory.AddSystem` | backend/agent/memory/conversation_memory.py:34-35 | the same for one system record |
| `Memory.ConversationMemory.GetMessages` | backend/agent/memory/conversation_memory.py:37-39 | same length as the transcript, and entry i is the role and content of record i |
| `Memory.ConversationMemory.GetMessagesWithMetadata` | backend/agent/memory/conversation_memory.py:41-42 | returns the stored records themselves, time stamps included, as many as `count()`, whose model view is `get_messages()` |
| `Memory.ConversationMemory.Clear` | backend/agent/memory/conversation_memory.py:44-49 | empties the transcript; for the file backend it removes the persisted copy of this session (when absent, nothing changes and nothing fails); it leaves other sessions' copies alone |
| `Memory.ConversationMemory.Count` | backend/agent/memory/conversation_memory.py:51-52 | equals the transcript length and the length of `get_messages()` |
| `Memory.ConversationMemory.Append` | backend/agent/memory/conversation_memory.py:58-65 | appends one record with the given role, content and time stamp; write-through: afterwards the persisted copy equals the in-memory transcript for the file backend, and storage is untouched otherwise |
| `Memory.ConversationMemory.Save` | backend/agent/memory/conversation_memory.py:70-72 | the persisted copy for this session becomes the whole transcript; no other key changes |
| `Memory.ConversationMemory.Load` | backend/agent/memory/conversation_memory.py:74-78 | takes the persisted copy when one exists and keeps the transcript otherwise |
| `Memory.ClearTwice` | backend/agent/memory/conversation_memory.py:44-49 | clearing a second time succeeds and leaves the same transcript and storage as clearing once |
| `Memory.Reopen` | backend/agent/memory/conversation_memory.py:18-22 | round trip: a store opened again for a synced file-backed session starts with exactly the transcript last written |
| `Memory.Resolve` | backend/agent/memory/conversation_memory.py:91-92 | `arg or os.getenv(name, fallback)`: a non-empty argument wins; otherwise a set variable wins, even when empty; otherwise the fallback |
| `Memory.MemoryManager.constructor` | backend/agent/memory/conversation_memory.py:84 | the registry starts empty and valid |
| `Memory.MemoryManager.Get` | backend/agent/memory/conversation_memory.py:87-94 | insert-if-absent: an unknown id gets a fresh store built from the resolved backend and directory and added under that id alone; a known id gets its existing store, the arguments are ignored and the registry is unchanged; the registry stays valid |
| `Memory.MemoryManager.Delete` | backend/agent/memory/conversation_memory.py:97-102 | returns true iff the id was registered; the id is then absent and every other entry is kept; the removed store was cleared, with its persisted copy removed when it was file-backed; an unregistered id leaves storage untouched |
| `Memory.DeleteThenGet` | backend/agent/memory/conversation_memory.py:87-102 | after deleting a registered session, a default lookup of that id yields a fresh store with `count() == 0`; after deleting an unregistered id, the lookup yields the transcript it would have yielded before |
| `WebSearch.Field` | backend/agent/tools/web_search.py:32-34 | `r.get(key, "")`: the value when the key is present, `""` otherwise |
| `WebSearch.CollectResults` | backend/agent/tools/web_search.py:30-35 | the loop yields one converted result per raw record, in order |
| `WebSearch.DuckDuckGoSearch` | backend/agent/tools/web_search.py:24-38 | the converted records (title/href/body) when the library answers, otherwise the single error sentinel carrying the error text |
| `WebSearch.SerpApiSearch` | backend/agent/tools/web_search.py:41-56 | the first `max_results` organic results (Python slice, missing list read as empty) converted with title/link/snippet; the single sentinel on an exception |
| `WebSearch.Search` | backend/agent/tools/web_search.py:10-21 | the SerpAPI path exactly when the key is non-empty, DuckDuckGo otherwise |
| `WebSearch.FailedSearchIsSentinel` | backend/agent/tools/web_search.py:37-56 | whichever backend is chosen, a raised exception gives exactly one record `("Search error", "", error)`, and it contributes no source URL |
| `WebSearch.SerpApiBounded` | backend/agent/tools/web_search.py:48-53 | a successful SerpAPI search returns at most `max_results` results, each the conversion of the organic result at the same index |
| `WebSearch.SourceUrls` | backend/agent/kimi_agent.py:63 | no more URLs than results; a string is a source iff it is non-empty and is the URL of some result |
| `WebSearch.SourceUrlsAppend` | backend/agent/kimi_agent.py:63 | order: one more result adds its URL at the end exactly when the URL is non-empty, so the sources are the non-empty URLs in result order |
| `WebSearch.ResultLinesLayout` | backend/agent/tools/web_search.py:64-70 | n results give exactly 4n lines; result k, numbered k+1 in list order, occupies lines 4k to 4k+3 as `[k+1] title`, `    URL: url`, `    snippet`, `""` |
| `WebSearch.ResultTextEndsWithNewline` | backend/agent/tools/web_search.py:69-70 | the joined lines of at least one result end in a newline, because the last line is empty |
| `WebSearch.FormattedResults` | backend/agent/tools/web_search.py:59-70 | the output is `"No results found."` exactly for an empty list; any other output ends in a newline |
| `WebSearch.FormattedSentinel` | backend/agent/tools/web_search.py:59-70 | the error sentinel renders exactly as `[1] Search error`, an empty URL line and the error text, each followed by a newline |
| `WebSearch.FormatSearchResults` | backend/agent/tools/web_search.py:59-70 | the loop builds exactly the four-line blocks joined by newlines; the result is `"No results found."` iff the list is empty |
| `PyText.Decimal` | backend/agent/tools/web_search.py:66 | `str(i)` for a result number is a non-empty string of digits without a leading zero |
| `PyText.DecimalRoundTrip` | backend/agent/tools/web_search.py:66 | reading back the rendered number gives the number |
| `PyText.Take` | backend/agent/tools/web_search.py:48 | Python's `s[:n]`: a prefix of `s` of exactly n elements, or all of `s` when it is shorter; for a negative n, -n elements short of `s` (empty when `s` is shorter) |
| `PyText.Lower` | backend/agent/kimi_agent.py:129 | `str.lower` on ASCII: same length, each upper-case letter replaced by its lower-case form, every other character kept, and no upper-case letter left |
| `PyText.JoinEnds` | backend/agent/tools/web_search.py:70 | `sep.join(lines)`: empty for no lines, otherwise starts with the first line and ends with the last |
| `PyText.ContainsIff` | backend/agent/kimi_agent.py:130 | `t in s` holds exactly when `t` occurs at some offset of `s` |
| `PyText.LStrip` | backend/agent/tools/file_reader.py:37 | `s.lstrip(c)` is the suffix of `s` left after its whole leading run of `c` |
| `FileReader.BaseName` | backend/agent/tools/file_reader.py:24 | the part of the path after the last `/`: a suffix of the path without any `/`, preceded by a `/` unless it is the whole path |
| `FileReader.RFind` | backend/agent/tools/file_reader.py:25 | `rfind`: -1 or an index holding the character, with no occurrence after it |
| `FileReader.NameSuffix` | backend/agent/tools/file_reader.py:25 | `Path.suffix` of a file name: non-empty exactly when the last dot is neither the first nor the last character, and then the tail from that dot, which holds no other dot |
| `FileReader.Suffix` | backend/agent/tools/file_reader.py:24-25 | `Path(path).suffix`: the tail of the last path component from its last dot when that dot is neither its first nor its last character, and empty otherwise; a dot followed by at least one character with no further dot or slash |
| `FileReader.Truncate` | backend/agent/tools/file_reader.py:47 | `text[:MAX_CHARS]`: the first 50000 characters of the text, or the whole text when it is shorter |
| `FileReader.NonBlank` | backend/agent/tools/file_reader.py:57 | keeps exactly the paragraphs whose stripped text is non-empty, never more than there are |
| `FileReader.NonBlankAppend` | backend/agent/tools/file_reader.py:57 | order: one more paragraph is kept at the end exactly when it has text, so the kept paragraphs are in document order |
| `FileReader.ReadPdf` | backend/agent/tools/file_reader.py:40-49 | succeeds iff PyMuPDF loaded the pages, with the pages joined by newlines and truncated; a missing library gives the RuntimeError text; any other exception passes through unchanged as a read failure carrying its message |
| `FileReader.ReadDocx` | backend/agent/tools/file_reader.py:52-60 | succeeds iff python-docx loaded the paragraphs, with the non-blank ones joined by newlines and truncated; a missing library gives its RuntimeError text; any other exception passes through unchanged as a read failure carrying its message |
| `FileReader.ReadText` | backend/agent/tools/file_reader.py:63-65 | succeeds iff the file was read, with its contents truncated; a failed read passes its error through unchanged |
| `FileReader.TypeLabel` | backend/agent/tools/file_reader.py:32-37 | for every accepted suffix, the label is the suffix without its dot (`pdf`, `docx`, or the `lstrip` of the rest) |
| `FileReader.ExtractText` | backend/agent/tools/file_reader.py:14-37 | raises the unsupported-type error iff the lower-cased suffix is not one of the five, carrying that suffix; otherwise the outcome is that of the reader the suffix selects (`.pdf` the PDF reader, `.docx` the DOCX reader, the other three the text reader), its text on success and its error on failure; on success the text is at most `MAX_CHARS` long and the label plus a dot is the lower-cased suffix |
| `FileReader.Dispatch` | backend/agent/tools/file_reader.py:27-37 | the same dispatch stated for an already lower-cased suffix |
| `FileReader.SuffixLower` | backend/agent/tools/file_reader.py:25 | lower-casing the path and taking its suffix commute |
| `FileReader.ExtensionCaseInsensitive` | backend/agent/tools/file_reader.py:24-30 | two paths equal up to letter case (such as `X.PDF` and `x.pdf`) have the same lower-cased suffix, are refused together, and get the same label when read |
| `FileReader.SummarizePrompt` | backend/agent/tools/file_reader.py:68-74 | the prompt is the fixed head, the name, the fixed middle, the text and the fixed tail, each at a fixed offset, so the name and the whole text can be read back |
| `Agent.ShouldSearchIff` | backend/agent/kimi_agent.py:123-130 | the heuristic holds iff one of the ten triggers occurs at some offset of the lower-cased message |
| `Agent.TriggerAtSearches` | backend/agent/kimi_agent.py:125-130 | a trigger found at any position of the lower-cased message makes the agent search |
| `Agent.QuestionSearches` | backend/agent/kimi_agent.py:125-130 | any message containing `?` is searched |
| `Agent.ShouldSearchIgnoresCase` | backend/agent/kimi_agent.py:129 | a message and its lower-cased form get the same decision |
| `Agent.Augment` | backend/agent/kimi_agent.py:59-68 | the stored text always starts with the message; it is the message itself exactly when no search ran, and there are sources only when a search ran |
| `Agent.AugmentWithoutSearch` | backend/agent/kimi_agent.py:53-61 | without a search the stored user text is the message verbatim and the sources are empty |
| `Agent.AugmentWithSearch` | backend/agent/kimi_agent.py:61-68 | with a search, the stored text is the message, a blank line, the header and then exactly the formatted results, which end in a newline or are the no-results text; the sources are `SourceUrls` of the results, the non-empty result URLs in order |
| `Agent.AugmentAfterFailedSearch` | backend/agent/kimi_agent.py:61-68 | when the chosen backend raises, the stored text ends in the one error block and there are no sources |
| `Agent.ReplyText` | backend/agent/kimi_agent.py:79 | `content or ""`: any content, the empty string included, is the reply; a null one becomes `""` |
| `Agent.Turn` | backend/agent/kimi_agent.py:55-80 | one turn keeps the old transcript as a prefix and adds the system prompt at index 0 only to an empty transcript; no other system entry is added; the model is asked with the transcript including the new user entry; on an answer the reply is appended and the transcript grows by 2 (3 on the first turn); on a failure the user entry stays and nothing else is added |
| `Agent.TurnAfterPreamble` | backend/agent/kimi_agent.py:56-57 | doing the first-message check before a turn changes nothing |
| `Agent.OnePreambleCount` | backend/agent/kimi_agent.py:56-57 | a transcript with the prompt at index 0 and no other system entry holds exactly one system entry |
| `Agent.TurnKeepsOnePreamble` | backend/agent/kimi_agent.py:55-80 | a turn, answered or failed, creates the single leading system prompt or keeps it |
| `Agent.SessionHasOnePreamble` | backend/agent/kimi_agent.py:52-117 | from an empty session, any sequence of chats and uploads, failed ones included, leaves the session empty or with exactly one system entry, the prompt, at index 0 |
| `Agent.ReplayExtends` | backend/agent/kimi_agent.py:52-117 | later requests never alter earlier transcript entries |
| `Agent.AnalyzeOutcomeLabel` | backend/agent/kimi_agent.py:100-117 | a successful upload returns the label of an accepted suffix, which is that lower-cased suffix without its dot |
| `Agent.Clock.Now` | backend/agent/memory/conversation_memory.py:62 | each time stamp is the clock's next reading |
| `Agent.KimiAgent.Stamp` | backend/agent/memory/conversation_memory.py:58-65 | one append to a registered store: its stored records gain exactly one record at the end, with that role and content and the clock's next reading as time stamp, and every earlier record is kept as it was; the clock advances by one, the registry stays valid, and every other session's transcript is unchanged |
| `Agent.KimiAgent.Open` | backend/agent/kimi_agent.py:52-57 | the default lookup plus the first-message check: the session's stored records gain one system-prompt record, stamped with the clock's next reading, exactly when there were none, and are otherwise left as they were; the registry gains at most this id, keeping the store already registered under it and every other id's store; no other session's transcript changes |
| `Agent.KimiAgent.AugmentMessage` | backend/agent/kimi_agent.py:59-68 | the search step yields exactly `Augment(userMessage, useSearch, search)`: the stored text and the sources |
| `Agent.KimiAgent.Converse` | backend/agent/kimi_agent.py:70-80 | stores the user text, asks the model with the transcript as it is after that, and stores its reply; the transcript's role and content and the reply are those of `Turn`, and the stored records before the call are kept as a prefix, time stamps included |
| `Agent.KimiAgent.Chat` | backend/agent/kimi_agent.py:40-82 | the role and content of the session's entries become `Step` of the old ones with the augmented text; the result is the reply and the sources, or the model's failure with the user turn kept; the session's earlier records are kept as a prefix, time stamps included; the registry gains at most the session's id and keeps every store already registered; every other session's transcript is unchanged and the registry stays valid |
| `Agent.KimiAgent.Summarize` | backend/agent/kimi_agent.py:101-117 | after a successful extraction, one turn with the summarise prompt, returning the summary and the type label; the session's earlier records are kept as a prefix, time stamps included; the registry gains at most the session's id and keeps every store already registered |
| `Agent.KimiAgent.AnalyzeFile` | backend/agent/kimi_agent.py:88-117 | when extraction fails, the registry, storage and clock are untouched, every session's stored records are exactly as before, and the error is returned; otherwise the role and content of the session's entries become `Step` of the old ones with the summarise prompt and the result carries the summary and label, the session's earlier records are kept as a prefix, time stamps included, and the registry gains at most the session's id and keeps every store already registered; every other session's transcript is unchanged |

## Left out

- JSON encoding, the `<id>.json` file naming, `mkdir` and I/O errors while writing or reading a transcript: durable storage is a map that always succeeds.
- Storage keys are (directory, session id) pairs, so distinct ids never share a file. The source joins `memory_dir / f"{session_id}.json"`, where ids such as `a` and `./a` name the same file and an id containing `..` reaches outside the directory. The "every other session is unchanged" clauses of `Agent.KimiAgent.Chat`, `Agent.KimiAgent.AnalyzeFile` and `Agent.KimiAgent.Stamp` therefore hold only for ids that name distinct files.
- `Agent.KimiAgent.Chat`, `Agent.KimiAgent.AnalyzeFile`, `Agent.KimiAgent.Summarize`, `Agent.KimiAgent.Converse`: earlier records are kept whole, time stamps included, but the records these calls add are fixed by role and content only; which clock reading each carries is not stated (`Agent.KimiAgent.Stamp` and `Agent.KimiAgent.Open` do state it).
- `datetime.utcnow().isoformat()`: time stamps are opaque clock readings; only `Agent.KimiAgent.Stamp` and `Agent.KimiAgent.Open` state which reading the record they add carries.
- Concurrency: the registry is a plain field. The unlocked class-level dict shared by async handlers is not modelled.
- The OpenAI client call: model name, base URL, `temperature` (0.7 for chat, 0.3 for summaries) and the `KIMI_API_KEY` check in the constructor are not modelled. The client is a deterministic function of the messages it is sent.
- `Memory.MemoryManager.Get`: the environment variables are read once, when the registry is built, not on every lookup.
- `WebSearch.Search`: `SERPAPI_KEY` is part of the search backends, fixed when the agent is built; the source reads it again on every search call, so a key set or removed while the process runs is not modelled.
- `PyText.Lower`: only ASCII letters are lower-cased; Unicode case mapping (including characters whose lower case is longer) is not modelled.
- `FileReader.Suffix`: the CPython 3.12 rule on the last `/` component; pathlib's normalisation of repeated or trailing slashes and Windows paths are not modelled.
- `FileReader.ExtractText`: the unsupported-type error carries the suffix but not its message text, whose list of extensions depends on set iteration order.
- Undecodable bytes replaced on read, and the text PyMuPDF and python-docx produce: these are opaque results of the document libraries.
- The search libraries' network behaviour and `num`/`max_results` handling inside the libraries: they are opaque functions of their arguments.
- The HTTP routes in backend/main.py (status codes, temporary upload files, CORS, `uuid4` ids), the request and response schemas and the TypeScript client and CLI.

=== FILE: Agent.dfy ===
/**
 * The turn orchestrator: `KimiAgent.chat` and `KimiAgent.analyze_file` over a
 * session's transcript, the keyword heuristic that decides whether to search,
 * and the way search results are folded into the user's text.
 *
 * The chat-completion client is an opaque function from the messages it is
 * sent to what it answers; the search libraries and the document libraries are
 * the opaque collaborators of the tool modules; time stamps come from a clock.
 */
module Agent {
  import opened Wrappers
  import opened PyText
  import opened Memory
  import opened WebSearch
  import opened FileReader

  const SystemPrompt: string :=
    "You are Kimi, a smart and helpful AI assistant.\n"
    + "You have access to:\n"
    + "- Web search: When users ask about current events or need up-to-date information, you will receive search results to base your answer on.\n"
    + "- File analysis: You can read and analyze uploaded documents (PDF, DOCX, TXT).\n"
    + "- Conversation memory: You remember previous messages in this session.\n"
    + "\n"
    + "Always be concise, accurate, and helpful. When using search results, cite the source URLs when relevant.\n"

  // ---------------------------------------------------------------------------
  // Whether to search
  // ---------------------------------------------------------------------------

  const SearchTriggers: seq<string> :=
    ["what is", "who is", "latest", "recent", "news", "current", "today", "price", "weather", "?"]

  /** `_should_search`: some trigger occurs in the lower-cased message. */
  predicate ShouldSearch(message: string) {
    exists i | 0 <= i < |SearchTriggers| :: Contains(Lower(message), SearchTriggers[i])
  }

  /** The heuristic stated on offsets: some trigger starts at some position of the lower-cased message. */
  lemma ShouldSearchIff(message: string)
    ensures ShouldSearch(message) <==>
      exists i, k :: 0 <= i < |SearchTriggers| && OccursAt(Lower(message), SearchTriggers[i], k)
  {
    forall i | 0 <= i < |SearchTriggers| {
      ContainsIff(Lower(message), SearchTriggers[i]);
    }
  }

  /** A trigger found at a known position of the lower-cased message makes the agent search. */
  lemma TriggerAtSearches(message: string, i: nat, k: nat)
    requires i < |SearchTriggers| && OccursAt(Lower(message), SearchTriggers[i], k)
    ensures ShouldSearch(message)
  {
    ContainsAt(Lower(message), SearchTriggers[i], k);
  }

  /** Every question searches: `?` is a trigger and lower-casing keeps it. */
  lemma QuestionSearches(message: string, k: nat)
    requires k < |message| && message[k] == '?'
    ensures ShouldSearch(message)
  {
    assert Lower(message)[k..k + 1] == "?";
    TriggerAtSearches(message, 9, k);
  }

  /** The heuristic ignores letter case. */
  lemma ShouldSearchIgnoresCase(message: string)
    ensures ShouldSearch(Lower(message)) == ShouldSearch(message)
  {
    LowerIdempotent(message);
  }

  // ---------------------------------------------------------------------------
  // Folding search results into the user's text
  // ---------------------------------------------------------------------------

  const SearchHeader: string := "[Web search results for your reference:]\n"

  /** The user text as stored and sent, and the source URLs returned with the reply. */
  datatype Augmented = Augmented(text: string, sources: seq<string>)

  /**
   * The user text `chat` stores, and its sources: the message is always kept
   * in front, and text is added only when a search ran.
   */
  function Augment(message: string, useSearch: bool, backends: SearchBackends): (a: Augmented)
    ensures |message| <= |a.text| && a.text[..|message|] == message
    ensures a.text == message <==> !(useSearch && ShouldSearch(message))
    ensures a.sources != [] ==> useSearch && ShouldSearch(message)
  {
    if useSearch && ShouldSearch(message) then
      var results := SearchResults(backends, message, DefaultMaxResults);
      Augmented(message + "\n\n" + SearchHeader + FormattedResults(results), SourceUrls(results))
    else
      Augmented(message, [])
  }

  /** Without a search the message is stored verbatim and there are no sources. */
  lemma AugmentWithoutSearch(message: string, useSearch: bool, backends: SearchBackends)
    requires !useSearch || !ShouldSearch(message)
    ensures Augment(message, useSearch, backends) == Augmented(message, [])
  {
  }

  /**
   * With a search, the stored text is the message, a blank line, the header and
   * the formatted results, which end with a newline or are the "no results" text;
   * the sources are the non-empty result URLs.
   */
  lemma AugmentWithSearch(message: string, backends: SearchBackends)
    requires ShouldSearch(message)
    ensures var a := Augment(message, true, backends);
      var results := SearchResults(backends, message, DefaultMaxResults);
      var prefix := message + "\n\n" + SearchHeader;
      && |a.text| > |prefix|
      && a.text[..|prefix|] == prefix
      && a.text[|prefix|..] == FormattedResults(results)
      && (results == [] <==> a.text[|prefix|..] == NoResults)
      && (results != [] ==> a.text[|a.text| - 1] == '\n')
      && a.sources == SourceUrls(results)
      && (forall u :: u in a.sources <==> u != "" && exists j :: 0 <= j < |results| && results[j].url == u)
  {
    var results := SearchResults(backends, message, DefaultMaxResults);
    var prefix := message + "\n\n" + SearchHeader;
    var text := prefix + FormattedResults(results);
    assert text[..|prefix|] == prefix;
    assert text[|prefix|..] == FormattedResults(results);
    if results != [] {
      assert text[|text| - 1] == FormattedResults(results)[|FormattedResults(results)| - 1];
    }
  }

  /** The text stored for a search that raised: the one error block, and no sources. */
  lemma AugmentAfterFailedSearch(message: string, backends: SearchBackends, error: string)
    requires ShouldSearch(message)
    requires backends.serpApiKey != "" ==>
      backends.serpApi(message, DefaultMaxResults, backends.serpApiKey) == Failure(error)
    requires backends.serpApiKey == "" ==> backends.duckDuckGo(message, DefaultMaxResults) == Failure(error)
    ensures Augment(message, true, backends) == Augmented(
      message + "\n\n" + SearchHeader + "[1] Search error\n    URL: \n    " + error + "\n", [])
  {
    FailedSearchIsSentinel(backends, message, DefaultMaxResults, error);
    FormattedSentinel(error);
  }

  // ---------------------------------------------------------------------------
  // One turn, on the model's view of the transcript
  // ---------------------------------------------------------------------------

  /** What the chat-completion call gives back: the first choice's content, possibly null, or an error. */
  datatype ModelOutcome = Replied(content: Option<string>) | CallFailed(error: string)

  /** The client, as a function of the messages it is sent. */
  type ModelClient = seq<ChatMessage> -> ModelOutcome

  /** The transcript after the first-message check: an empty one gets the system prompt. */
  function WithPreamble(t: seq<ChatMessage>): seq<ChatMessage> {
    if |t| == 0 then [ChatMessage(System, SystemPrompt)] else t
  }

  /** `content or ""`. */
  function ReplyText(content: Option<string>): (reply: string)
    ensures content.Some? ==> reply == content.value
    ensures content.None? ==> reply == ""
  {
    content.GetOr("")
  }

  /** The transcript after a turn, and the reply or the error the client raised. */
  datatype TurnResult = TurnResult(transcript: seq<ChatMessage>, reply: Result<string, string>)

  /**
   * One turn with user text `userText`: the system prompt if the transcript is
   * empty, the user entry, then the client is asked with everything so far and
   * its reply is appended; if the call fails the user entry stays.
   */
  function Turn(t: seq<ChatMessage>, userText: string, client: ModelClient): (r: TurnResult)
    ensures |r.transcript| == |t| + (if t == [] then 1 else 0) + (if r.reply.Success? then 2 else 1)
    ensures t <= r.transcript
    ensures t == [] ==> r.transcript[0] == ChatMessage(System, SystemPrompt)
    ensures forall i :: |t| <= i < |r.transcript| && r.transcript[i].role == System ==> t == [] && i == 0
    ensures var asked := WithPreamble(t) + [ChatMessage(User, userText)];
      && asked <= r.transcript
      && (r.reply.Success? <==> client(asked).Replied?)
      && (r.reply.Success? ==> r.transcript == asked + [ChatMessage(Assistant, r.reply.value)]
                               && r.reply.value == ReplyText(client(asked).content))
      && (r.reply.Failure? ==> r.transcript == asked && r.reply.error == client(asked).error)
  {
    var asked := WithPreamble(t) + [ChatMessage(User, userText)];
    match client(asked)
    case Replied(content) => TurnResult(asked + [ChatMessage(Assistant, ReplyText(content))], Success(ReplyText(content)))
    case CallFailed(e) => TurnResult(asked, Failure(e))
  }

  /** The first-message check is already part of a turn, so doing it first changes nothing. */
  lemma TurnAfterPreamble(t: seq<ChatMessage>, userText: string, client: ModelClient)
    ensures Turn(WithPreamble(t), userText, client) == Turn(t, userText, client)
  {
  }

  /** Exactly one system entry, the system prompt, at the front. */
  ghost predicate OnePreamble(t: seq<ChatMessage>) {
    |t| > 0 && t[0] == ChatMessage(System, SystemPrompt) && forall i :: 0 < i < |t| ==> t[i].role != System
  }

  /** The number of system entries. */
  function SystemCount(t: seq<ChatMessage>): nat {
    if t == [] then 0 else (if t[0].role == System then 1 else 0) + SystemCount(t[1..])
  }

  /** A transcript with one preamble holds exactly one system entry. */
  lemma {:induction false} OnePreambleCount(t: seq<ChatMessage>)
    requires OnePreamble(t)
    ensures SystemCount(t) == 1
  {
    NoSystemCount(t[1..]);
  }

  lemma {:induction false} NoSystemCount(t: seq<ChatMessage>)
    requires forall i :: 0 <= i < |t| ==> t[i].role != System
    ensures SystemCount(t) == 0
  {
    if t != [] {
      NoSystemCount(t[1..]);
    }
  }

  /** A turn, whether or not the client answers, keeps exactly one preamble or creates it. */
  lemma TurnKeepsOnePreamble(t: seq<ChatMessage>, userText: string, client: ModelClient)
    requires t == [] || OnePreamble(t)
    ensures OnePreamble(Turn(t, userText, client).transcript)
  {
    var r := Turn(t, userText, client).transcript;
    if t != [] {
      assert r[0] == t[0];
    }
  }

  // ---------------------------------------------------------------------------
  // Sessions as sequences of requests
  // ---------------------------------------------------------------------------

  /**
   * A request on a session: a chat turn with its (possibly augmented) user text,
   * or an upload whose extraction gave a summarise prompt, or failed (`None`).
   */
  datatype TurnInput = ChatTurn(text: string) | UploadTurn(prompt: Option<string>)

  /** The transcript after one request. */
  function Step(t: seq<ChatMessage>, input: TurnInput, client: ModelClient): seq<ChatMessage> {
    match input
    case ChatTurn(text) => Turn(t, text, client).transcript
    case UploadTurn(None) => t
    case UploadTurn(Some(prompt)) => Turn(t, prompt, client).transcript
  }

  /** The transcript after a sequence of requests, in order. */
  function Replay(t: seq<ChatMessage>, inputs: seq<TurnInput>, client: ModelClient): seq<ChatMessage>
    decreases |inputs|
  {
    if inputs == [] then t else Replay(Step(t, inputs[0], client), inputs[1..], client)
  }

  /**
   * From an empty session, any sequence of chats and uploads, including ones
   * whose client call or extraction failed, leaves the session empty or with
   * exactly one system entry, the system prompt, at index 0.
   */
  lemma {:induction false} SessionHasOnePreamble(t: seq<ChatMessage>, inputs: seq<TurnInput>, client: ModelClient)
    requires t == [] || OnePreamble(t)
    ensures var end := Replay(t, inputs, client);
      end == [] || (OnePreamble(end) && SystemCount(end) == 1)
    decreases |inputs|
  {
    if inputs == [] {
      if t != [] {
        OnePreambleCount(t);
      }
    } else {
      var next := Step(t, inputs[0], client);
      match inputs[0] {
        case ChatTurn(text) => TurnKeepsOnePreamble(t, text, client);
        case UploadTurn(None) =>
        case UploadTurn(Some(prompt)) => TurnKeepsOnePreamble(t, prompt, client);
      }
      SessionHasOnePreamble(next, inputs[1..], client);
    }
  }

  /** The earlier transcript survives every later request unchanged, as a prefix. */
  lemma {:induction false} ReplayExtends(t: seq<ChatMessage>, inputs: seq<TurnInput>, client: ModelClient)
    ensures t <= Replay(t, inputs, client)
    decreases |inputs|
  {
    if inputs != [] {
      var next := Step(t, inputs[0], client);
      ReplayExtends(next, inputs[1..], client);
    }
  }

  // ---------------------------------------------------------------------------
  // What `chat` and `analyze_file` return
  // ---------------------------------------------------------------------------

  /** `(reply_text, list_of_source_urls)`. */
  datatype ChatReply = ChatReply(reply: string, sources: seq<string>)

  /** `(summary, file_type)`. */
  datatype FileSummary = FileSummary(summary: string, fileType: string)

  /** Why `analyze_file` raised: extraction failed, or the client call did. */
  datatype AnalyzeError = ExtractionFailed(cause: ExtractError) | ModelFailed(error: string)

  /** What `chat` returns for a transcript `t`. */
  function ChatOutcome(t: seq<ChatMessage>, a: Augmented, client: ModelClient): Result<ChatReply, string> {
    match Turn(t, a.text, client).reply
    case Success(reply) => Success(ChatReply(reply, a.sources))
    case Failure(e) => Failure(e)
  }

  /** What `analyze_file` returns for a transcript `t`. */
  function AnalyzeOutcome(t: seq<ChatMessage>, extracted: Result<Extracted, ExtractError>, fileName: string,
                          client: ModelClient): Result<FileSummary, AnalyzeError>
  {
    match extracted
    case Failure(e) => Failure(ExtractionFailed(e))
    case Success(x) =>
      match Turn(t, SummarizePrompt(x.text, fileName), client).reply
      case Success(summary) => Success(FileSummary(summary, x.typeLabel))
      case Failure(e) => Failure(ModelFailed(e))
  }

  /** The request an upload amounts to: its summarise prompt, or nothing when extraction failed. */
  function UploadInput(extracted: Result<Extracted, ExtractError>, fileName: string): TurnInput {
    match extracted
    case Success(x) => UploadTurn(Some(SummarizePrompt(x.text, fileName)))
    case Failure(_) => UploadTurn(None)
  }

  /** A successful upload reports the extension's type label and a summary the client gave. */
  lemma AnalyzeOutcomeLabel(t: seq<ChatMessage>, path: string, fileName: string,
                            libraries: DocumentLibraries, client: ModelClient)
    requires AnalyzeOutcome(t, ExtractText(path, libraries), fileName, client).Success?
    ensures var r := AnalyzeOutcome(t, ExtractText(path, libraries), fileName, client);
      && "." + r.value.fileType == Lower(Suffix(path))
      && Lower(Suffix(path)) in SupportedExtensions
  {
  }

  // ---------------------------------------------------------------------------
  // The agent
  // ---------------------------------------------------------------------------

  /**
   * The registry after a lookup of `id`: `id` is registered, every other id is
   * registered to the same store as before, and a store already registered
   * under `id` is kept.
   */
  ghost predicate OnlyRegisters(before: map<string, ConversationMemory>, after: map<string, ConversationMemory>,
                                id: string)
  {
    && id in after
    && after == before[id := after[id]]
    && (id in before ==> after[id] == before[id])
  }

  /** The clock the stores' time stamps are read from. */
  class Clock {
    var ticks: nat
    const reading: nat -> Timestamp

    constructor (reading: nat -> Timestamp)
      ensures ticks == 0 && this.reading == reading
    {
      ticks := 0;
      this.reading := reading;
    }

    method Now() returns (at: Timestamp)
      modifies this
      ensures at == reading(old(ticks)) && ticks == old(ticks) + 1
    {
      at := reading(ticks);
      ticks := ticks + 1;
    }
  }

  class KimiAgent {
    const registry: MemoryManager
    const client: ModelClient
    const search: SearchBackends
    const documents: DocumentLibraries
    const clock: Clock

    constructor (registry: MemoryManager, client: ModelClient, search: SearchBackends,
                 documents: DocumentLibraries, clock: Clock)
      ensures this.registry == registry && this.client == client && this.search == search
      ensures this.documents == documents && this.clock == clock
    {
      this.registry := registry;
      this.client := client;
      this.search := search;
      this.documents := documents;
      this.clock := clock;
    }

    /** The model's view of a session's transcript. */
    function History(id: string): seq<ChatMessage>
      reads registry, registry.instances.Values, registry.disk
    {
      ForModel(registry.Transcript(id))
    }

    /** Appends one entry to the store registered under `id`, stamped from the clock. */
    method Stamp(id: string, memory: ConversationMemory, role: Role, content: string)
      requires registry.Valid() && id in registry.instances && registry.instances[id] == memory
      modifies memory, registry.disk, clock
      ensures registry.Valid()
      ensures registry.Transcript(id) == old(registry.Transcript(id)) + [Record(role, content, clock.reading(old(clock.ticks)))]
      ensures History(id) == old(History(id)) + [ChatMessage(role, content)]
      ensures clock.ticks == old(clock.ticks) + 1
      ensures forall other :: other != id ==> registry.Transcript(other) == old(registry.Transcript(other))
    {
      var at := clock.Now();
      memory.Append(role, content, at);
      ForModelAppend(old(memory.messages), [Record(role, content, at)]);
      forall other | other in registry.instances && other != id
        ensures registry.instances[other].Synced()
      {
        assert registry.instances[other].Key() != memory.Key();
        assert old(registry.instances[other].Synced());
      }
      forall other | other != id
        ensures registry.Transcript(other) == old(registry.Transcript(other))
      {
        if other in registry.instances {
          assert registry.instances[other] != memory;
        } else {
          assert FileKey(registry.DefaultDir(), other) != memory.Key();
        }
      }
    }

    /**
     * `MemoryManager.get(session_id)` followed by the first-message check: the
     * session's store, holding the system prompt if it was empty.
     */
    method Open(id: string) returns (memory: ConversationMemory)
      requires registry.Valid()
      modifies registry, registry.disk, registry.instances.Values, clock
      ensures registry.Valid() && id in registry.instances && registry.instances[id] == memory
      ensures id in old(registry.instances) ==> memory == old(registry.instances[id])
      ensures id !in old(registry.instances) ==> fresh(memory)
      ensures registry.instances == old(registry.instances)[id := memory]
      ensures History(id) == WithPreamble(old(History(id)))
      ensures registry.Transcript(id) == old(registry.Transcript(id)) +
        (if old(registry.Transcript(id)) == [] then [Record(System, SystemPrompt, clock.reading(old(clock.ticks)))] else [])
      ensures forall other :: other != id ==> registry.Transcript(other) == old(registry.Transcript(other))
    {
      memory := registry.Get(id, None, None);
      assert registry.Transcript(id) == old(registry.Transcript(id));
      assert History(id) == old(History(id));
      if memory.Count() == 0 {
        Stamp(id, memory, System, SystemPrompt);
      }
    }

    /** Stores the user text, asks the client with the whole transcript, and stores its reply. */
    method Converse(id: string, memory: ConversationMemory, text: string) returns (reply: Result<string, string>)
      requires registry.Valid() && id in registry.instances && registry.instances[id] == memory
      requires History(id) != []
      modifies memory, registry.disk, clock
      ensures registry.Valid()
      ensures History(id) == Turn(old(History(id)), text, client).transcript
      ensures reply == Turn(old(History(id)), text, client).reply
      ensures old(registry.Transcript(id)) <= registry.Transcript(id)
      ensures forall other :: other != id ==> registry.Transcript(other) == old(registry.Transcript(other))
    {
      Stamp(id, memory, User, text);
      var asked := memory.GetMessages();
      match client(asked)
      case Replied(content) =>
        var answer := ReplyText(content);
        Stamp(id, memory, Assistant, answer);
        reply := Success(answer);
      case CallFailed(e) =>
        reply := Failure(e);
    }

    /**
     * `chat`: look the session up, put the system prompt into an empty
     * transcript, search if asked and the heuristic agrees, store the user text,
     * ask the client with the whole transcript, and store its reply.
     */
    method Chat(sessionId: string, userMessage: string, useSearch: bool)
      returns (outcome: Result<ChatReply, string>)
      requires registry.Valid()
      modifies registry, registry.disk, registry.instances.Values, clock
      ensures registry.Valid() && sessionId in registry.instances
      ensures History(sessionId) ==
        Step(old(History(sessionId)), ChatTurn(Augment(userMessage, useSearch, search).text), client)
      ensures outcome == ChatOutcome(old(History(sessionId)), Augment(userMessage, useSearch, search), client)
      ensures old(registry.Transcript(sessionId)) <= registry.Transcript(sessionId)
      ensures OnlyRegisters(old(registry.instances), registry.instances, sessionId)
      ensures forall id :: id != sessionId ==> registry.Transcript(id) == old(registry.Transcript(id))
    {
      ghost var before := History(sessionId);
      var memory := Open(sessionId);
      var augmented := AugmentMessage(userMessage, useSearch);
      var reply := Converse(sessionId, memory, augmented.text);
      TurnAfterPreamble(before, augmented.text, client);
      match reply
      case Success(text) =>
        outcome := Success(ChatReply(text, augmented.sources));
      case Failure(e) =>
        outcome := Failure(e);
    }

    /** The optional search of `chat`: the user text with the formatted results folded in, and the sources. */
    method AugmentMessage(userMessage: string, useSearch: bool) returns (augmented: Augmented)
      ensures augmented == Augment(userMessage, useSearch, search)
    {
      augmented := Augmented(userMessage, []);
      if useSearch && ShouldSearch(userMessage) {
        var results := Search(userMessage, DefaultMaxResults, search);
        var sources := SourceUrls(results);
        var context := FormatSearchResults(results);
        augmented := Augmented(userMessage + "\n\n" + SearchHeader + context, sources);
      }
    }

    /** The part of `analyze_file` after a successful extraction: one turn with the summarise prompt. */
    method Summarize(sessionId: string, extracted: Extracted, fileName: string)
      returns (outcome: Result<FileSummary, AnalyzeError>)
      requires registry.Valid()
      modifies registry, registry.disk, registry.instances.Values, clock
      ensures registry.Valid()
      ensures History(sessionId) ==
        Step(old(History(sessionId)), UploadInput(Success(extracted), fileName), client)
      ensures outcome == AnalyzeOutcome(old(History(sessionId)), Success(extracted), fileName, client)
      ensures old(registry.Transcript(sessionId)) <= registry.Transcript(sessionId)
      ensures OnlyRegisters(old(registry.instances), registry.instances, sessionId)
      ensures forall id :: id != sessionId ==> registry.Transcript(id) == old(registry.Transcript(id))
    {
      ghost var before := History(sessionId);
      var prompt := SummarizePrompt(extracted.text, fileName);
      var memory := Open(sessionId);
      var reply := Converse(sessionId, memory, prompt);
      TurnAfterPreamble(before, prompt, client);
      match reply
      case Success(summary) =>
        outcome := Success(FileSummary(summary, extracted.typeLabel));
      case Failure(e) =>
        outcome := Failure(ModelFailed(e));
    }

    /**
     * `analyze_file`: extract first (a failure touches nothing), then look the
     * session up and run one turn with the summarise prompt.
     */
    method AnalyzeFile(sessionId: string, filePath: string, fileName: string)
      returns (outcome: Result<FileSummary, AnalyzeError>)
      requires registry.Valid()
      modifies registry, registry.disk, registry.instances.Values, clock
      ensures registry.Valid()
      ensures History(sessionId) ==
        Step(old(History(sessionId)), UploadInput(ExtractText(filePath, documents), fileName), client)
      ensures outcome == AnalyzeOutcome(old(History(sessionId)), ExtractText(filePath, documents), fileName, client)
      ensures old(registry.Transcript(sessionId)) <= registry.Transcript(sessionId)
      ensures ExtractText(filePath, documents).Success? ==>
        OnlyRegisters(old(registry.instances), registry.instances, sessionId)
      ensures forall id :: id != sessionId ==> registry.Transcript(id) == old(registry.Transcript(id))
      ensures ExtractText(filePath, documents).Failure? ==>
        unchanged(registry, registry.disk, clock) && registry.instances == old(registry.instances)
      ensures ExtractText(filePath, documents).Failure? ==>
        forall id :: registry.Transcript(id) == old(registry.Transcript(id))
    {
      var extracted := ExtractText(filePath, documents);
      match extracted
      case Failure(e) =>
        outcome := Failure(ExtractionFailed(e));
      case Success(x) =>
        outcome := Summarize(sessionId, x, fileName);
    }
  }
}

=== FILE: FileReader.dfy ===
/**
 * The file-reader tool: the extension check and dispatch of `extract_text`,
 * the readers' joining and truncation to `MAX_CHARS`, and the summary prompt.
 * PyMuPDF, python-docx and the file system are opaque functions of the path.
 */
module FileReader {
  import opened Wrappers
  import opened PyText

  const SupportedExtensions: set<string> := {".pdf", ".docx", ".txt", ".md", ".csv"}
  const MaxChars: nat := 50000

  /** A document library: what it returned, or that it is not installed, or what it raised. */
  datatype Library<T> = Loaded(value: T) | NotInstalled | Raised(message: string)

  /**
   * The extraction back ends: the text of each PDF page (PyMuPDF), the text of
   * each DOCX paragraph (python-docx), and a plain file read with undecodable
   * bytes replaced.
   */
  datatype DocumentLibraries = DocumentLibraries(
    pdfPages: string -> Library<seq<string>>,
    docxParagraphs: string -> Library<seq<string>>,
    readFile: string -> Result<string, string>)

  /** `ValueError` for an unsupported type; `RuntimeError` for a missing library; anything a library raised. */
  datatype ExtractError = Unsupported(extension: string) | BackendMissing(message: string) | ReadFailed(message: string)

  /** `(text, detected_type)`. */
  datatype Extracted = Extracted(text: string, typeLabel: string)

  const PdfMissing: string := "PyMuPDF not installed. Run: pip install PyMuPDF"
  const DocxMissing: string := "python-docx not installed. Run: pip install python-docx"

  /** The last component of a POSIX path: everything after the last '/'. */
  function BaseName(path: string): (name: string)
    ensures '/' !in name
    ensures |name| <= |path| && name == path[|path| - |name|..]
    ensures |name| == |path| || path[|path| - |name| - 1] == '/'
  {
    if path == [] || path[|path| - 1] == '/' then []
    else BaseName(path[..|path| - 1]) + [path[|path| - 1]]
  }

  /** `name.rfind(c)`: the index of the last `c`, or -1. */
  function RFind(name: string, c: char): (i: int)
    ensures -1 <= i < |name|
    ensures 0 <= i ==> name[i] == c
    ensures forall j :: i < j < |name| ==> name[j] != c
  {
    if name == [] then -1
    else if name[|name| - 1] == c then |name| - 1
    else RFind(name[..|name| - 1], c)
  }

  /** `Path(path).suffix`: the suffix of the path's file name. */
  function Suffix(path: string): (ext: string)
    ensures ext == [] || (|ext| >= 2 && ext[0] == '.' && '.' !in ext[1..] && '/' !in ext)
    ensures var name := BaseName(path); var i := RFind(name, '.');
      && (ext != [] <==> 0 < i < |name| - 1)
      && (ext != [] ==> ext == name[i..])
  {
    NameSuffix(BaseName(path))
  }

  /** From the last dot of a file name, unless that dot leads or ends the name. */
  function NameSuffix(name: string): (ext: string)
    ensures ext == [] || (2 <= |ext| <= |name| && ext[0] == '.' && '.' !in ext[1..] && ext == name[|name| - |ext|..])
    ensures ext != [] <==> 0 < RFind(name, '.') < |name| - 1
    ensures ext != [] ==> ext == name[RFind(name, '.')..]
  {
    var i := RFind(name, '.');
    if 0 < i < |name| - 1 then name[i..] else ""
  }

  /** `text[:MAX_CHARS]`. */
  function Truncate(text: string): (r: string)
    ensures r <= text
    ensures |r| == if |text| < MaxChars then |text| else MaxChars
  {
    Take(text, MaxChars)
  }

  /** `p.text.strip()` is non-empty: the paragraph holds a character other than white space. */
  predicate HasText(p: string) {
    exists i | 0 <= i < |p| :: !IsSpace(p[i])
  }

  /**
   * The characters `str.strip` removes (those for which `str.isspace` holds):
   * tab to carriage return, the four separators 0x1C to 0x1F, space, and the
   * Unicode spaces and line and paragraph separators.
   */
  predicate IsSpace(c: char) {
    var n := c as int;
    || 0x09 <= n <= 0x0D || 0x1C <= n <= 0x20 || n == 0x85 || n == 0xA0 || n == 0x1680
    || 0x2000 <= n <= 0x200A || n == 0x2028 || n == 0x2029 || n == 0x202F || n == 0x205F || n == 0x3000
  }

  /** The paragraphs `_read_docx` keeps, in order. */
  function NonBlank(paragraphs: seq<string>): (kept: seq<string>)
    ensures forall p :: p in kept <==> p in paragraphs && HasText(p)
    ensures |kept| <= |paragraphs|
  {
    if paragraphs == [] then []
    else if HasText(paragraphs[0]) then [paragraphs[0]] + NonBlank(paragraphs[1..])
    else NonBlank(paragraphs[1..])
  }

  /** The kept paragraphs in document order: one more paragraph is kept at the end exactly when it has text. */
  lemma {:induction false} NonBlankAppend(paragraphs: seq<string>, p: string)
    ensures NonBlank(paragraphs + [p]) == NonBlank(paragraphs) + (if HasText(p) then [p] else [])
    decreases |paragraphs|
  {
    if paragraphs != [] {
      assert (paragraphs + [p])[1..] == paragraphs[1..] + [p];
      NonBlankAppend(paragraphs[1..], p);
    }
  }

  /** `_read_pdf`: the pages joined by newlines, truncated. */
  function ReadPdf(path: string, libraries: DocumentLibraries): (r: Result<string, ExtractError>)
    ensures r.Success? <==> libraries.pdfPages(path).Loaded?
    ensures r.Success? ==> r.value == Truncate(Join(libraries.pdfPages(path).value, "\n"))
    ensures libraries.pdfPages(path).NotInstalled? ==> r == Failure(BackendMissing(PdfMissing))
    ensures libraries.pdfPages(path).Raised? ==> r == Failure(ReadFailed(libraries.pdfPages(path).message))
  {
    match libraries.pdfPages(path)
    case Loaded(pages) => Success(Truncate(Join(pages, "\n")))
    case NotInstalled => Failure(BackendMissing(PdfMissing))
    case Raised(e) => Failure(ReadFailed(e))
  }

  /** `_read_docx`: the non-blank paragraphs joined by newlines, truncated. */
  function ReadDocx(path: string, libraries: DocumentLibraries): (r: Result<string, ExtractError>)
    ensures r.Success? <==> libraries.docxParagraphs(path).Loaded?
    ensures r.Success? ==> r.value == Truncate(Join(NonBlank(libraries.docxParagraphs(path).value), "\n"))
    ensures libraries.docxParagraphs(path).NotInstalled? ==> r == Failure(BackendMissing(DocxMissing))
    ensures libraries.docxParagraphs(path).Raised? ==> r == Failure(ReadFailed(libraries.docxParagraphs(path).message))
  {
    match libraries.docxParagraphs(path)
    case Loaded(paragraphs) => Success(Truncate(Join(NonBlank(paragraphs), "\n")))
    case NotInstalled => Failure(BackendMissing(DocxMissing))
    case Raised(e) => Failure(ReadFailed(e))
  }

  /** `_read_text`: the file's contents, truncated. */
  function ReadText(path: string, libraries: DocumentLibraries): (r: Result<string, ExtractError>)
    ensures r.Success? <==> libraries.readFile(path).Success?
    ensures r.Success? ==> r.value == Truncate(libraries.readFile(path).value)
    ensures libraries.readFile(path).Failure? ==> r == Failure(ReadFailed(libraries.readFile(path).error))
  {
    match libraries.readFile(path)
    case Success(text) => Success(Truncate(text))
    case Failure(e) => Failure(ReadFailed(e))
  }

  /** The type label reported for an accepted suffix: the suffix without its dot. */
  function TypeLabel(ext: string): (detected: string)
    requires ext in SupportedExtensions
    ensures "." + detected == ext
  {
    if ext == ".pdf" then "pdf"
    else if ext == ".docx" then "docx"
    else
      assert ext == ".txt" || ext == ".md" || ext == ".csv";
      LStripOne(ext, '.');
      LStrip(ext, '.')
  }

  /** The extraction outcome is the reader's: its text on success, its error on failure. */
  ghost predicate ExtractedBy(r: Result<Extracted, ExtractError>, read: Result<string, ExtractError>) {
    && (r.Success? <==> read.Success?)
    && (r.Success? ==> r.value.text == read.value)
    && (r.Failure? ==> r.error == read.error)
  }

  /** `extract_text`: reject unsupported suffixes, otherwise read with the reader for the suffix. */
  function ExtractText(path: string, libraries: DocumentLibraries): (r: Result<Extracted, ExtractError>)
    ensures r.Failure? && r.error.Unsupported? <==> Lower(Suffix(path)) !in SupportedExtensions
    ensures r.Failure? && r.error.Unsupported? ==> r.error.extension == Lower(Suffix(path))
    ensures r.Success? ==> |r.value.text| <= MaxChars
    ensures r.Success? ==> "." + r.value.typeLabel == Lower(Suffix(path))
    ensures Lower(Suffix(path)) == ".pdf" ==> ExtractedBy(r, ReadPdf(path, libraries))
    ensures Lower(Suffix(path)) == ".docx" ==> ExtractedBy(r, ReadDocx(path, libraries))
    ensures Lower(Suffix(path)) in {".txt", ".md", ".csv"} ==> ExtractedBy(r, ReadText(path, libraries))
  {
    Dispatch(Lower(Suffix(path)), path, libraries)
  }

  /** The body of `extract_text` once the lower-cased suffix `ext` is known. */
  function Dispatch(ext: string, path: string, libraries: DocumentLibraries): (r: Result<Extracted, ExtractError>)
    ensures r.Failure? && r.error.Unsupported? <==> ext !in SupportedExtensions
    ensures r.Failure? && r.error.Unsupported? ==> r.error.extension == ext
    ensures r.Success? ==> |r.value.text| <= MaxChars
    ensures r.Success? ==> "." + r.value.typeLabel == ext
    ensures ext == ".pdf" ==> ExtractedBy(r, ReadPdf(path, libraries))
    ensures ext == ".docx" ==> ExtractedBy(r, ReadDocx(path, libraries))
    ensures ext in {".txt", ".md", ".csv"} ==> ExtractedBy(r, ReadText(path, libraries))
  {
    if ext !in SupportedExtensions then Failure(Unsupported(ext))
    else
      var read := if ext == ".pdf" then ReadPdf(path, libraries)
                  else if ext == ".docx" then ReadDocx(path, libraries)
                  else ReadText(path, libraries);
      match read
      case Success(text) => Success(Extracted(text, TypeLabel(ext)))
      case Failure(e) => Failure(e)
  }

  /** One more character either ends the file name at a `/` or extends it. */
  lemma BaseNameSnoc(front: string, c: char)
    ensures BaseName(front + [c]) == if c == '/' then [] else BaseName(front) + [c]
  {
    assert (front + [c])[..|front|] == front;
  }

  /** Lower-casing a path and taking its file name commute. */
  lemma {:induction false} BaseNameLower(path: string)
    ensures BaseName(Lower(path)) == Lower(BaseName(path))
    decreases |path|
  {
    if path != [] {
      var front, last := path[..|path| - 1], path[|path| - 1];
      assert path == front + [last];
      LowerSnoc(front, last);
      BaseNameSnoc(front, last);
      BaseNameSnoc(Lower(front), LowerChar(last));
      if last != '/' {
        BaseNameLower(front);
        LowerSnoc(BaseName(front), last);
      }
    }
  }

  /** Lower-casing leaves the position of the last dot where it was. */
  lemma {:induction false} RFindDotLower(name: string)
    ensures RFind(Lower(name), '.') == RFind(name, '.')
    decreases |name|
  {
    if name != [] {
      var front, last := name[..|name| - 1], name[|name| - 1];
      assert name == front + [last];
      LowerAppend(front, [last]);
      assert Lower(name) == Lower(front) + [LowerChar(last)];
      RFindDotLower(front);
    }
  }

  /** Lower-casing a file name and taking its suffix commute. */
  lemma NameSuffixLower(name: string)
    ensures NameSuffix(Lower(name)) == Lower(NameSuffix(name))
  {
    RFindDotLower(name);
    var i := RFind(name, '.');
    if 0 < i < |name| - 1 {
      assert Lower(name)[i..] == Lower(name[i..]);
    }
  }

  /** Lower-casing a path and taking its suffix commute. */
  lemma SuffixLower(path: string)
    ensures Suffix(Lower(path)) == Lower(Suffix(path))
  {
    BaseNameLower(path);
    NameSuffixLower(BaseName(path));
  }

  /**
   * The suffix test ignores case: two paths that differ only in letter case
   * (such as "X.PDF" and "x.pdf") are accepted or refused together and, when
   * read, get the same type label.
   */
  lemma ExtensionCaseInsensitive(p: string, q: string, libraries: DocumentLibraries)
    requires Lower(p) == Lower(q)
    ensures Lower(Suffix(p)) == Lower(Suffix(q))
    ensures ExtractText(p, libraries).Failure? && ExtractText(p, libraries).error.Unsupported?
      <==> ExtractText(q, libraries).Failure? && ExtractText(q, libraries).error.Unsupported?
    ensures ExtractText(p, libraries).Success? && ExtractText(q, libraries).Success? ==>
      ExtractText(p, libraries).value.typeLabel == ExtractText(q, libraries).value.typeLabel
  {
    SuffixLower(p);
    SuffixLower(q);
    var rp, rq := ExtractText(p, libraries), ExtractText(q, libraries);
    if rp.Success? && rq.Success? {
      assert ("." + rp.value.typeLabel)[1..] == rp.value.typeLabel;
      assert ("." + rq.value.typeLabel)[1..] == rq.value.typeLabel;
    }
  }

  const PromptHead: string := "The user has uploaded a file named '"
  const PromptMiddle: string := "'. Here are its contents:\n\n---\n"
  const PromptTail: string := "\n---\n\nPlease provide a concise summary and highlight the key points."

  /**
   * `summarize_prompt`: the fixed head, the name, the fixed middle, the text and
   * the fixed tail, so the name and the whole text can be read back at fixed offsets.
   */
  function SummarizePrompt(text: string, fileName: string): (p: string)
    ensures |p| == |PromptHead| + |fileName| + |PromptMiddle| + |text| + |PromptTail|
    ensures p[..|PromptHead|] == PromptHead
    ensures p[|PromptHead|..|PromptHead| + |fileName|] == fileName
    ensures p[|PromptHead| + |fileName|..|PromptHead| + |fileName| + |PromptMiddle|] == PromptMiddle
    ensures p[|PromptHead| + |fileName| + |PromptMiddle|..|p| - |PromptTail|] == text
    ensures p[|p| - |PromptTail|..] == PromptTail
  {
    PromptHead + fileName + PromptMiddle + text + PromptTail
  }
}

=== FILE: Memory.dfy ===
/**
 * Conversation memory: one session's transcript store (`ConversationMemory`)
 * and the process-wide registry of stores (`MemoryManager`).
 *
 * The file backend is modelled as a shared `Disk` object holding one persisted
 * transcript per (memory directory, session id); JSON encoding, paths and
 * directory creation are not part of this model.
 */
module Memory {
  import opened Wrappers

  /** The three roles of a transcript entry. */
  datatype Role = System | User | Assistant

  /** An ISO-format time stamp; its value comes from a clock outside the model. */
  type Timestamp = string

  /** One stored transcript entry: `{role, content, timestamp}`. */
  datatype Record = Record(role: Role, content: string, timestamp: Timestamp)

  /** One entry as handed to the model: `{role, content}`. */
  datatype ChatMessage = ChatMessage(role: Role, content: string)

  /** The model's view of a transcript: the same entries in the same order, time stamps dropped. */
  function ForModel(records: seq<Record>): (messages: seq<ChatMessage>)
    ensures |messages| == |records|
    ensures forall i :: 0 <= i < |records| ==>
      messages[i].role == records[i].role && messages[i].content == records[i].content
  {
    if records == [] then [] else [ChatMessage(records[0].role, records[0].content)] + ForModel(records[1..])
  }

  /** Projecting a concatenation projects each part. */
  lemma ForModelAppend(a: seq<Record>, b: seq<Record>)
    ensures ForModel(a + b) == ForModel(a) + ForModel(b)
  {
    assert forall i :: 0 <= i < |a + b| ==> ForModel(a + b)[i] == (ForModel(a) + ForModel(b))[i];
  }

  /** Where a file-backed store persists its transcript. */
  datatype FileKey = FileKey(memoryDir: string, sessionId: string)

  /** The durable backend: the persisted transcript of every file key that has one. */
  class Disk {
    var files: map<FileKey, seq<Record>>

    constructor (files: map<FileKey, seq<Record>>)
      ensures this.files == files
    {
      this.files := files;
    }
  }

  const FileBackend: string := "file"
  const DefaultMemoryDir: string := "./data/memory"

  /** The transcript a store for `key` starts with when constructed over `files`. */
  function Restored(backend: string, key: FileKey, files: map<FileKey, seq<Record>>): seq<Record> {
    if backend == FileBackend && key in files then files[key] else []
  }

  class ConversationMemory {
    const sessionId: string
    const backend: string
    const memoryDir: string
    const disk: Disk
    var messages: seq<Record>

    function Key(): FileKey {
      FileKey(memoryDir, sessionId)
    }

    predicate FileBacked() {
      backend == FileBackend
    }

    /** Write-through holds: re-opening this session now would give back exactly `messages`. */
    ghost predicate Synced()
      reads this, disk
    {
      FileBacked() ==> Restored(backend, Key(), disk.files) == messages
    }

    /** A file-backed store loads the persisted transcript of its session, if any. */
    constructor (sessionId: string, backend: string, memoryDir: string, disk: Disk)
      ensures this.sessionId == sessionId && this.backend == backend
      ensures this.memoryDir == memoryDir && this.disk == disk
      ensures messages == Restored(backend, FileKey(memoryDir, sessionId), disk.files)
      ensures Synced()
    {
      this.sessionId := sessionId;
      this.backend := backend;
      this.memoryDir := memoryDir;
      this.disk := disk;
      messages := [];
      new;
      if backend == FileBackend {
        Load();
      }
    }

    method AddUser(content: string, at: Timestamp)
      modifies this, disk
      ensures messages == old(messages) + [Record(User, content, at)]
      ensures disk.files == if FileBacked() then old(disk.files)[Key() := messages] else old(disk.files)
      ensures Synced()
    {
      Append(User, content, at);
    }

    method AddAssistant(content: string, at: Timestamp)
      modifies this, disk
      ensures messages == old(messages) + [Record(Assistant, content, at)]
      ensures disk.files == if FileBacked() then old(disk.files)[Key() := messages] else old(disk.files)
      ensures Synced()
    {
      Append(Assistant, content, at);
    }

    method AddSystem(content: string, at: Timestamp)
      modifies this, disk
      ensures messages == old(messages) + [Record(System, content, at)]
      ensures disk.files == if FileBacked() then old(disk.files)[Key() := messages] else old(disk.files)
      ensures Synced()
    {
      Append(System, content, at);
    }

    /** The entries in OpenAI message format: role and content only. */
    function GetMessages(): (ms: seq<ChatMessage>)
      reads this
      ensures |ms| == |messages|
      ensures forall i :: 0 <= i < |messages| ==>
        ms[i] == ChatMessage(messages[i].role, messages[i].content)
    {
      ForModel(messages)
    }

    /** A copy of the stored entries, time stamps included. */
    function GetMessagesWithMetadata(): (rs: seq<Record>)
      reads this
      ensures |rs| == Count() && ForModel(rs) == GetMessages()
      ensures rs == messages
    {
      messages
    }

    /** Empties the transcript and removes the persisted copy; clearing twice is clearing once. */
    method Clear()
      modifies this, disk
      ensures messages == []
      ensures disk.files == if FileBacked() then old(disk.files) - {Key()} else old(disk.files)
      ensures Synced()
    {
      messages := [];
      if backend == FileBackend {
        if Key() in disk.files {
          disk.files := disk.files - {Key()};
        }
      }
    }

    function Count(): (n: nat)
      reads this
      ensures n == |messages| && n == |GetMessages()|
    {
      |messages|
    }

    /** Adds one entry at the end and, for the file backend, rewrites the persisted copy. */
    method Append(role: Role, content: string, at: Timestamp)
      modifies this, disk
      ensures messages == old(messages) + [Record(role, content, at)]
      ensures disk.files == if FileBacked() then old(disk.files)[Key() := messages] else old(disk.files)
      ensures Synced()
    {
      messages := messages + [Record(role, content, at)];
      if backend == FileBackend {
        Save();
      }
    }

    /** Replaces the persisted copy with the whole transcript. */
    method Save()
      modifies disk
      ensures disk.files == old(disk.files)[Key() := messages]
    {
      disk.files := disk.files[Key() := messages];
    }

    /** Reads back the persisted copy when one exists; otherwise keeps what is held. */
    method Load()
      modifies this
      ensures messages == if Key() in disk.files then disk.files[Key()] else old(messages)
    {
      if Key() in disk.files {
        messages := disk.files[Key()];
      }
    }
  }

  /** Clearing a store a second time succeeds and leaves what the first clear left. */
  method ClearTwice(m: ConversationMemory)
    modifies m, m.disk
    ensures m.messages == [] && m.Synced()
    ensures m.disk.files == if m.FileBacked() then old(m.disk.files) - {m.Key()} else old(m.disk.files)
  {
    m.Clear();
    ghost var once := m.disk.files;
    m.Clear();
    assert m.disk.files == once;
  }

  /**
   * Save/load round trip: a store opened again for the same session, backend
   * and directory starts with exactly what the written-through store holds.
   */
  method Reopen(m: ConversationMemory) returns (again: ConversationMemory)
    requires m.Synced() && m.FileBacked()
    ensures fresh(again) && again.Key() == m.Key() && again.messages == m.messages
  {
    again := new ConversationMemory(m.sessionId, m.backend, m.memoryDir, m.disk);
  }

  /** The environment variables the registry consults. */
  datatype Environment = Environment(memoryBackend: Option<string>, memoryDir: Option<string>)

  /** `arg or os.getenv(name, fallback)`: a missing or empty argument defers to the environment. */
  function Resolve(arg: Option<string>, envValue: Option<string>, fallback: string): (r: string)
    ensures arg.Some? && arg.value != "" ==> r == arg.value
    ensures (arg.None? || arg.value == "") && envValue.Some? ==> r == envValue.value
    ensures (arg.None? || arg.value == "") && envValue.None? ==> r == fallback
  {
    if arg.Some? && arg.value != "" then arg.value else envValue.GetOr(fallback)
  }

  /** The registry: the session id to store map, shared by every request. */
  class MemoryManager {
    const disk: Disk
    const env: Environment
    var instances: map<string, ConversationMemory>

    /** Every store is registered under its own id, shares the disk and is written through. */
    ghost predicate Valid()
      reads this, instances.Values, disk
    {
      forall id :: id in instances ==>
        instances[id].sessionId == id && instances[id].disk == disk && instances[id].Synced()
    }

    /** The backend and directory a lookup without arguments resolves to. */
    function DefaultBackend(): string {
      Resolve(None, env.memoryBackend, FileBackend)
    }

    function DefaultDir(): string {
      Resolve(None, env.memoryDir, DefaultMemoryDir)
    }

    /** The transcript a lookup of `id` without arguments would hand out now. */
    function Transcript(id: string): seq<Record>
      reads this, instances.Values, disk
    {
      if id in instances then instances[id].messages
      else Restored(DefaultBackend(), FileKey(DefaultDir(), id), disk.files)
    }

    constructor (disk: Disk, env: Environment)
      ensures this.disk == disk && this.env == env && instances == map[]
      ensures Valid()
    {
      this.disk := disk;
      this.env := env;
      instances := map[];
    }

    /** Insert-if-absent: an unknown id gets a new store; a known id gets its store, arguments ignored. */
    method Get(id: string, backend: Option<string>, memoryDir: Option<string>) returns (m: ConversationMemory)
      requires Valid()
      modifies this
      ensures Valid()
      ensures id in instances && instances[id] == m && m.sessionId == id && m.disk == disk
      ensures id in old(instances) ==> m == old(instances[id]) && instances == old(instances)
      ensures id !in old(instances) ==> fresh(m) && instances == old(instances)[id := m]
      ensures id !in old(instances) ==>
        && m.backend == Resolve(backend, env.memoryBackend, FileBackend)
        && m.memoryDir == Resolve(memoryDir, env.memoryDir, DefaultMemoryDir)
        && m.messages == Restored(m.backend, m.Key(), disk.files)
    {
      if id !in instances {
        var created := new ConversationMemory(
          id,
          Resolve(backend, env.memoryBackend, FileBackend),
          Resolve(memoryDir, env.memoryDir, DefaultMemoryDir),
          disk);
        instances := instances[id := created];
      }
      m := instances[id];
    }

    /** Clears and unregisters a known id; reports whether the id was registered. */
    method Delete(id: string) returns (existed: bool)
      requires Valid()
      modifies this, disk, if id in instances then {instances[id]} else {}
      ensures Valid()
      ensures existed <==> id in old(instances)
      ensures instances == old(instances) - {id}
      ensures existed ==> old(instances[id]).messages == []
      ensures existed && old(instances[id]).FileBacked() ==> disk.files == old(disk.files) - {old(instances[id]).Key()}
      ensures existed && !old(instances[id]).FileBacked() ==> disk.files == old(disk.files)
      ensures !existed ==> disk.files == old(disk.files)
    {
      if id in instances {
        var removed := instances[id];
        removed.Clear();
        instances := instances - {id};
        existed := true;
      } else {
        existed := false;
      }
    }
  }

  /**
   * Deleting a session that was created by a default lookup, then looking it up
   * again, yields an empty store.
   */
  method DeleteThenGet(registry: MemoryManager, id: string) returns (existed: bool, m: ConversationMemory)
    requires registry.Valid()
    requires id in registry.instances ==>
      registry.instances[id].backend == registry.DefaultBackend() &&
      registry.instances[id].memoryDir == registry.DefaultDir()
    modifies registry, registry.disk, if id in registry.instances then {registry.instances[id]} else {}
    ensures existed <==> id in old(registry.instances)
    ensures existed ==> fresh(m) && m.Count() == 0
    ensures !existed ==> m.messages == old(registry.Transcript(id))
  {
    existed := registry.Delete(id);
    m := registry.Get(id, None, None);
  }
}

=== FILE: PyText.dfy ===
/**
 * The few Python string and sequence built-ins the core relies on:
 * `str.lower`, `t in s`, `sep.join(lines)`, `f"{n}"` for a natural number,
 * `s[:n]` and `str.lstrip(c)`, stated on `seq<char>`.
 */
module PyText {

  /** ASCII model of `str.lower` on one character. */
  function LowerChar(c: char): char {
    if 'A' <= c <= 'Z' then (c as int + 32) as char else c
  }

  /** `s.lower()`: every character lower-cased in place. */
  function Lower(s: string): (r: string)
    ensures |r| == |s|
    ensures forall i :: 0 <= i < |s| && 'A' <= s[i] <= 'Z' ==> r[i] as int == s[i] as int + 32
    ensures forall i :: 0 <= i < |s| && !('A' <= s[i] <= 'Z') ==> r[i] == s[i]
    ensures forall i :: 0 <= i < |r| ==> !('A' <= r[i] <= 'Z')
  {
    seq(|s|, i requires 0 <= i < |s| => LowerChar(s[i]))
  }

  /** Lower-casing works character by character, so it distributes over concatenation. */
  lemma LowerAppend(a: string, b: string)
    ensures Lower(a + b) == Lower(a) + Lower(b)
  {
  }

  /** Lower-casing one more character appends its lower-case form. */
  lemma LowerSnoc(s: string, c: char)
    ensures Lower(s + [c]) == Lower(s) + [LowerChar(c)]
  {
    LowerAppend(s, [c]);
  }

  /** Lower-casing twice is lower-casing once. */
  lemma LowerIdempotent(s: string)
    ensures Lower(Lower(s)) == Lower(s)
  {
    assert forall i :: 0 <= i < |s| ==> LowerChar(LowerChar(s[i])) == LowerChar(s[i]);
  }

  /** True when `t` occurs in `s` starting at offset `k`. */
  ghost predicate OccursAt(s: string, t: string, k: int) {
    0 <= k && k + |t| <= |s| && s[k..k + |t|] == t
  }

  /** Python's `t in s` for strings, scanning `s` from the front. */
  function Contains(s: string, t: string): bool
    decreases |s|
  {
    (|t| <= |s| && s[..|t|] == t) || (|s| > 0 && Contains(s[1..], t))
  }

  /** `t in s` holds exactly when `t` occurs at some offset of `s`. */
  lemma {:induction false} ContainsIff(s: string, t: string)
    ensures Contains(s, t) <==> exists k :: OccursAt(s, t, k)
    decreases |s|
  {
    if Contains(s, t) {
      if |t| <= |s| && s[..|t|] == t {
        assert OccursAt(s, t, 0);
      } else {
        ContainsIff(s[1..], t);
        var k :| OccursAt(s[1..], t, k);
        assert s[k + 1..k + 1 + |t|] == s[1..][k..k + |t|];
        assert OccursAt(s, t, k + 1);
      }
    }
    if exists k :: OccursAt(s, t, k) {
      var k :| OccursAt(s, t, k);
      if k == 0 {
        assert s[..|t|] == t;
      } else {
        assert s[1..][k - 1..k - 1 + |t|] == s[k..k + |t|];
        assert OccursAt(s[1..], t, k - 1);
        ContainsIff(s[1..], t);
      }
    }
  }

  /** An occurrence at a known offset makes `t in s` true. */
  lemma ContainsAt(s: string, t: string, k: nat)
    requires OccursAt(s, t, k)
    ensures Contains(s, t)
  {
    ContainsIff(s, t);
  }

  /** `sep.join(lines)`: the lines with the separator between each two neighbours. */
  function Join(lines: seq<string>, sep: string): string
    decreases |lines|
  {
    if |lines| == 0 then ""
    else if |lines| == 1 then lines[0]
    else lines[0] + sep + Join(lines[1..], sep)
  }

  /** A join is empty for no lines, and otherwise starts with the first line and ends with the last. */
  lemma {:induction false} JoinEnds(lines: seq<string>, sep: string)
    ensures lines == [] ==> Join(lines, sep) == ""
    ensures |lines| > 0 ==> |lines[0]| <= |Join(lines, sep)| && Join(lines, sep)[..|lines[0]|] == lines[0]
    ensures |lines| > 0 ==> var r, last := Join(lines, sep), lines[|lines| - 1];
      |last| <= |r| && r[|r| - |last|..] == last
    decreases |lines|
  {
    if |lines| > 1 {
      JoinEnds(lines[1..], sep);
      var rest := Join(lines[1..], sep);
      assert Join(lines, sep) == lines[0] + sep + rest;
      assert lines[1..][|lines| - 2] == lines[|lines| - 1];
    }
  }

  /** Joining at least two lines whose last one is empty ends the text with the separator. */
  lemma {:induction false} JoinEndsWithSeparator(lines: seq<string>, sep: string)
    requires |lines| >= 2 && lines[|lines| - 1] == ""
    ensures |Join(lines, sep)| >= |sep|
    ensures Join(lines, sep)[|Join(lines, sep)| - |sep|..] == sep
    decreases |lines|
  {
    if |lines| == 2 {
      assert Join(lines, sep) == lines[0] + sep + "";
    } else {
      JoinEndsWithSeparator(lines[1..], sep);
      var rest := Join(lines[1..], sep);
      assert Join(lines, sep) == lines[0] + sep + rest;
      assert (lines[0] + sep + rest)[|lines[0] + sep + rest| - |sep|..] == rest[|rest| - |sep|..];
    }
  }

  /** A line in front of at least one more is followed by the separator. */
  lemma JoinCons(line: string, rest: seq<string>, sep: string)
    requires rest != []
    ensures Join([line] + rest, sep) == line + sep + Join(rest, sep)
  {
    assert ([line] + rest)[1..] == rest;
  }

  /** Joining three lines and an empty one puts the separator after each of the three. */
  lemma JoinFour(a: string, b: string, c: string, sep: string)
    ensures Join([a, b, c, ""], sep) == a + sep + (b + sep + (c + sep))
  {
    assert [c] + [""] == [c, ""] && [b] + [c, ""] == [b, c, ""] && [a] + [b, c, ""] == [a, b, c, ""];
    JoinCons(c, [""], sep);
    JoinCons(b, [c, ""], sep);
    JoinCons(a, [b, c, ""], sep);
  }

  /** The character of a decimal digit. */
  function DigitChar(d: nat): char
    requires d < 10
  {
    ('0' as int + d) as char
  }

  ghost predicate AllDigits(s: string) {
    forall i :: 0 <= i < |s| ==> '0' <= s[i] <= '9'
  }

  /** `f"{n}"` / `str(n)` for a natural number: its decimal digits, no leading zero. */
  function Decimal(n: nat): (r: string)
    ensures |r| >= 1 && AllDigits(r)
    ensures n > 0 ==> r[0] != '0'
  {
    if n < 10 then [DigitChar(n)] else Decimal(n / 10) + [DigitChar(n % 10)]
  }

  /** The number a string of decimal digits denotes. */
  ghost function DigitsValue(s: string): nat
    requires AllDigits(s)
  {
    if s == [] then 0 else DigitsValue(s[..|s| - 1]) * 10 + (s[|s| - 1] as int - '0' as int)
  }

  /** Reading back the decimal rendering of `n` gives `n`. */
  lemma {:induction false} DecimalRoundTrip(n: nat)
    ensures DigitsValue(Decimal(n)) == n
  {
    if n >= 10 {
      DecimalRoundTrip(n / 10);
      var r := Decimal(n);
      assert r[..|r| - 1] == Decimal(n / 10);
    }
  }

  /** Python's slice `s[:n]`, including its meaning for a negative `n`. */
  function Take<T>(s: seq<T>, n: int): (r: seq<T>)
    ensures r <= s
    ensures 0 <= n ==> |r| == (if n < |s| then n else |s|)
    ensures n < 0 ==> |r| == (if |s| + n > 0 then |s| + n else 0)
  {
    if n >= 0 then (if n < |s| then s[..n] else s)
    else if |s| + n > 0 then s[..|s| + n]
    else []
  }

  /** `s.lstrip(c)`: `s` without its leading run of `c`. */
  function LStrip(s: string, c: char): (r: string)
    ensures |r| <= |s| && r == s[|s| - |r|..]
    ensures r == [] || r[0] != c
    ensures forall i :: 0 <= i < |s| - |r| ==> s[i] == c
  {
    if s != [] && s[0] == c then LStrip(s[1..], c) else s
  }

  /** A single leading `c` is all `lstrip` removes when the next character differs. */
  lemma LStripOne(s: string, c: char)
    requires |s| >= 2 && s[0] == c && s[1] != c
    ensures LStrip(s, c) == s[1..]
  {
    assert LStrip(s[1..], c) == s[1..];
  }
}

=== FILE: WebSearch.dfy ===
/**
 * The web-search tool: backend dispatch on the SerpAPI key, conversion of the
 * search libraries' raw records, the error sentinel, and the text block that is
 * folded into the prompt. The DuckDuckGo and SerpAPI libraries are opaque
 * functions of the query.
 */
module WebSearch {
  import opened Wrappers
  import opened PyText

  /** One search hit: `{title, url, snippet}`. */
  datatype SearchResult = SearchResult(title: string, url: string, snippet: string)

  /** A raw record as a search library returns it: a dictionary of strings. */
  type RawRecord = map<string, string>

  /** The keys of a raw record that hold the title, the URL and the snippet. */
  datatype FieldNames = FieldNames(title: string, url: string, snippet: string)

  const DuckDuckGoFields: FieldNames := FieldNames("title", "href", "body")
  const SerpApiFields: FieldNames := FieldNames("title", "link", "snippet")

  const DefaultMaxResults: int := 5
  const ErrorTitle: string := "Search error"
  const NoResults: string := "No results found."

  /** SerpAPI's response: `organic_results` may be missing. */
  datatype SerpData = SerpData(organicResults: Option<seq<RawRecord>>)

  /**
   * The search libraries as seen from this tool: the key read from `SERPAPI_KEY`,
   * DuckDuckGo's `text(query, max_results)` and SerpAPI's `get_dict()`; a raised
   * exception is `Failure` with its text.
   */
  datatype SearchBackends = SearchBackends(
    serpApiKey: string,
    duckDuckGo: (string, int) -> Result<seq<RawRecord>, string>,
    serpApi: (string, int, string) -> Result<SerpData, string>)

  /** `r.get(key, "")`. */
  function Field(r: RawRecord, key: string): (v: string)
    ensures key !in r ==> v == ""
    ensures key in r ==> v == r[key]
  {
    if key in r then r[key] else ""
  }

  function Convert(r: RawRecord, names: FieldNames): SearchResult {
    SearchResult(Field(r, names.title), Field(r, names.url), Field(r, names.snippet))
  }

  /** The single record that stands for a failed search. */
  function ErrorSentinel(error: string): SearchResult {
    SearchResult(ErrorTitle, "", error)
  }

  /** Every raw record converted, in order. */
  function ConvertAll(raw: seq<RawRecord>, names: FieldNames): seq<SearchResult> {
    seq(|raw|, i requires 0 <= i < |raw| => Convert(raw[i], names))
  }

  /** The loop both library paths run: append one converted record per raw record. */
  method CollectResults(raw: seq<RawRecord>, names: FieldNames) returns (results: seq<SearchResult>)
    ensures |results| == |raw|
    ensures forall i :: 0 <= i < |raw| ==> results[i] == Convert(raw[i], names)
  {
    results := [];
    var i := 0;
    while i < |raw|
      invariant 0 <= i <= |raw|
      invariant |results| == i
      invariant forall j :: 0 <= j < i ==> results[j] == Convert(raw[j], names)
    {
      results := results + [Convert(raw[i], names)];
      i := i + 1;
    }
  }

  function DuckDuckGoResults(response: Result<seq<RawRecord>, string>): seq<SearchResult> {
    match response
    case Success(raw) => ConvertAll(raw, DuckDuckGoFields)
    case Failure(e) => [ErrorSentinel(e)]
  }

  function SerpApiResults(response: Result<SerpData, string>, maxResults: int): seq<SearchResult> {
    match response
    case Success(data) => ConvertAll(Take(data.organicResults.GetOr([]), maxResults), SerpApiFields)
    case Failure(e) => [ErrorSentinel(e)]
  }

  /** What `web_search` returns: SerpAPI when a key is set, DuckDuckGo otherwise. */
  function SearchResults(backends: SearchBackends, query: string, maxResults: int): seq<SearchResult> {
    if backends.serpApiKey != "" then
      SerpApiResults(backends.serpApi(query, maxResults, backends.serpApiKey), maxResults)
    else
      DuckDuckGoResults(backends.duckDuckGo(query, maxResults))
  }

  method DuckDuckGoSearch(query: string, maxResults: int, backends: SearchBackends) returns (results: seq<SearchResult>)
    ensures results == DuckDuckGoResults(backends.duckDuckGo(query, maxResults))
  {
    match backends.duckDuckGo(query, maxResults)
    case Success(raw) =>
      results := CollectResults(raw, DuckDuckGoFields);
    case Failure(e) =>
      results := [ErrorSentinel(e)];
  }

  method SerpApiSearch(query: string, maxResults: int, apiKey: string, backends: SearchBackends)
    returns (results: seq<SearchResult>)
    ensures results == SerpApiResults(backends.serpApi(query, maxResults, apiKey), maxResults)
  {
    match backends.serpApi(query, maxResults, apiKey)
    case Success(data) =>
      results := CollectResults(Take(data.organicResults.GetOr([]), maxResults), SerpApiFields);
    case Failure(e) =>
      results := [ErrorSentinel(e)];
  }

  /** `web_search`: the SerpAPI path exactly when the key is non-empty. */
  method Search(query: string, maxResults: int, backends: SearchBackends) returns (results: seq<SearchResult>)
    ensures backends.serpApiKey != "" ==>
      results == SerpApiResults(backends.serpApi(query, maxResults, backends.serpApiKey), maxResults)
    ensures backends.serpApiKey == "" ==>
      results == DuckDuckGoResults(backends.duckDuckGo(query, maxResults))
  {
    if backends.serpApiKey != "" {
      results := SerpApiSearch(query, maxResults, backends.serpApiKey, backends);
    } else {
      results := DuckDuckGoSearch(query, maxResults, backends);
    }
  }

  /** A failing library yields exactly the sentinel, whose empty URL contributes no source. */
  lemma FailedSearchIsSentinel(backends: SearchBackends, query: string, maxResults: int, error: string)
    requires backends.serpApiKey != "" ==> backends.serpApi(query, maxResults, backends.serpApiKey) == Failure(error)
    requires backends.serpApiKey == "" ==> backends.duckDuckGo(query, maxResults) == Failure(error)
    ensures SearchResults(backends, query, maxResults) == [SearchResult("Search error", "", error)]
    ensures SourceUrls(SearchResults(backends, query, maxResults)) == []
  {
  }

  /** A successful SerpAPI call keeps at most `maxResults` records, the first ones, in order. */
  lemma SerpApiBounded(data: SerpData, maxResults: int)
    requires 0 <= maxResults
    ensures |SerpApiResults(Success(data), maxResults)| <= maxResults
    ensures forall i :: 0 <= i < |SerpApiResults(Success(data), maxResults)| ==>
      SerpApiResults(Success(data), maxResults)[i] == Convert(data.organicResults.value[i], SerpApiFields)
  {
  }

  /** `[r["url"] for r in results if r["url"]]`. */
  function SourceUrls(results: seq<SearchResult>): (urls: seq<string>)
    ensures |urls| <= |results|
    ensures forall u :: u in urls <==> u != "" && exists i :: 0 <= i < |results| && results[i].url == u
  {
    if results == [] then []
    else if results[0].url != "" then [results[0].url] + SourceUrls(results[1..])
    else SourceUrls(results[1..])
  }

  /**
   * The comprehension read in iteration order: one more result adds its URL at
   * the end when the URL is non-empty, and nothing otherwise.
   */
  lemma {:induction false} SourceUrlsAppend(results: seq<SearchResult>, r: SearchResult)
    ensures SourceUrls(results + [r]) == SourceUrls(results) + (if r.url != "" then [r.url] else [])
    decreases |results|
  {
    if results != [] {
      assert (results + [r])[1..] == results[1..] + [r];
      SourceUrlsAppend(results[1..], r);
    }
  }

  /** The four lines result number `n` contributes. */
  function ResultBlock(r: SearchResult, n: nat): seq<string> {
    ["[" + Decimal(n) + "] " + r.title, "    URL: " + r.url, "    " + r.snippet, ""]
  }

  /** The lines of the formatted block, built as the loop builds them: one block per result, in order. */
  function ResultLines(results: seq<SearchResult>): seq<string> {
    if results == [] then []
    else ResultLines(results[..|results| - 1]) + ResultBlock(results[|results| - 1], |results|)
  }

  /** What `format_search_results` returns: the no-results text exactly for no results, otherwise text ending in a newline. */
  function FormattedResults(results: seq<SearchResult>): (text: string)
    ensures text == NoResults <==> results == []
    ensures results != [] ==> |text| >= 1 && text[|text| - 1] == '\n'
  {
    if results == [] then NoResults
    else
      ResultTextEndsWithNewline(results);
      assert NoResults[|NoResults| - 1] == '.';
      Join(ResultLines(results), "\n")
  }

  /** Result `k` (numbered `k + 1`) occupies lines `4k` to `4k + 3`, and there are no others. */
  lemma {:induction false} ResultLinesLayout(results: seq<SearchResult>)
    ensures |ResultLines(results)| == 4 * |results|
    ensures forall k :: 0 <= k < |results| ==>
      ResultLines(results)[4 * k..4 * k + 4] == ResultBlock(results[k], k + 1)
  {
    if results != [] {
      var front := results[..|results| - 1];
      ResultLinesLayout(front);
      forall k | 0 <= k < |results|
        ensures ResultLines(results)[4 * k..4 * k + 4] == ResultBlock(results[k], k + 1)
      {
        if k < |results| - 1 {
          assert ResultLines(results)[4 * k..4 * k + 4] == ResultLines(front)[4 * k..4 * k + 4];
          assert front[k] == results[k];
        }
      }
    }
  }

  /** The lines of at least one result, joined, end with a newline: the last line is empty. */
  lemma ResultTextEndsWithNewline(results: seq<SearchResult>)
    requires results != []
    ensures var text := Join(ResultLines(results), "\n"); |text| >= 1 && text[|text| - 1] == '\n'
  {
    var lines := ResultLines(results);
    assert |lines| >= 4 && lines[|lines| - 1] == "";
    JoinEndsWithSeparator(lines, "\n");
  }

  /** The four lines of the sentinel, numbered 1. */
  lemma SentinelLines(error: string)
    ensures ResultLines([ErrorSentinel(error)]) == ["[1] Search error", "    URL: ", "    " + error, ""]
  {
    var sentinel := ErrorSentinel(error);
    assert Decimal(1) == "1";
    assert "[" + Decimal(1) + "] " + ErrorTitle == "[1] Search error";
    assert "    URL: " + sentinel.url == "    URL: ";
    assert ResultLines([sentinel]) == ResultLines([]) + ResultBlock(sentinel, 1);
  }

  /** The block for a failed search: the sentinel numbered 1, its empty URL line, the error text. */
  lemma FormattedSentinel(error: string)
    ensures FormattedResults([ErrorSentinel(error)]) == "[1] Search error\n    URL: \n    " + error + "\n"
  {
    SentinelLines(error);
    var title, url, rest := "[1] Search error", "    URL: ", error + "\n";
    JoinFour(title, url, "    " + error, "\n");
    assert "    " + error + "\n" == "    " + rest;
    assert url + "\n" + ("    " + rest) == url + "\n" + "    " + rest;
    assert title + "\n" + (url + "\n" + "    " + rest) == title + "\n" + (url + "\n" + "    ") + rest;
    assert title + "\n" + (url + "\n" + "    ") == "[1] Search error\n    URL: \n    ";
  }

  /** `format_search_results`: numbered four-line blocks joined by newlines, or the "no results" text. */
  method FormatSearchResults(results: seq<SearchResult>) returns (text: string)
    ensures text == FormattedResults(results)
    ensures text == NoResults <==> results == []
  {
    if results == [] {
      return NoResults;
    }
    var lines: seq<string> := [];
    var i := 0;
    while i < |results|
      invariant 0 <= i <= |results|
      invariant lines == ResultLines(results[..i])
    {
      assert results[..i + 1][..i] == results[..i];
      lines := lines + ResultBlock(results[i], i + 1);
      i := i + 1;
    }
    assert results[..i] == results;
    text := Join(lines, "\n");
  }
}

=== FILE: Wrappers.dfy ===
/** Failure-carrying values used for the source's exceptions and optional values. */
module Wrappers {

  datatype Option<+T> = None | Some(value: T) {
    /** The wrapped value, or `default` when there is none. */
    function GetOr(default: T): T {
      match this
      case Some(v) => v
      case None => default
    }
  }

  /** A raised exception becomes `Failure`; a normal return becomes `Success`. */
  datatype Result<+R, +E> = Success(value: R) | Failure(error: E)
}
